=== FILE: README.md ===
# Catalog price export: change events and variant reindexing, in Dafny

This project models three pieces of data-shaping logic from the catalog price
data exporter and the configurable product data exporter of a Magento-based
commerce data export, and proves what they compute.

- **Attribute price-event retriever** (`ProductPriceEvent::retrieve`, module
  `ProductPriceEvent`). It takes an entity id, a scope id and a comma-separated
  list of price attribute codes. The list is split and deduplicated. The rows of
  the price query are indexed by attribute code, and one event per requested
  code is emitted. An event is "deleted" when the code has no value and
  "changed" otherwise. Every error is swallowed, and the events built so far are
  returned.
- **Batched custom-option price event generator**
  (`CustomOptionTypePriceEvent::retrieve`, module `CustomOptionTypePriceEvent`).
  The index records are cut into batches of `BATCH_SIZE`. Within a batch the
  entity ids are grouped by scope and one query is run per scope. The fetched
  rows are keyed by option type id. One map of events, keyed by an event key
  derived from the scope's website, is yielded per batch. Any error becomes
  `UnableRetrieveData`.
- **Save-time variant reindex trigger** (`ReindexVariantsAfterSave::afterSave`,
  module `ReindexVariantsAfterSave`). After a simple or virtual product is
  saved, the parents linked through an attribute whose value strictly changed
  are collected. They are appended to the variant feed indexer's change log in
  scheduled mode, or reindexed at once otherwise.

Two shared modules model the PHP runtime these rely on:

- `PhpArray` covers `array_unique`, `array_chunk`, and the ordered hash behind
  every PHP array (`OrderedArray`: iteration order plus content). It also covers
  the two write forms `$a[$k] = $v` (`Put`, `IndexBy`) and `$a[$k][] = $v`
  (`AppendTo`, `GroupBy`).
- `PhpString` covers `explode` and `implode` with a one-character separator.

External services are parameters:

- The database queries and cursors become the rows they return, or a failure.
- The store manager becomes a function from scope id to website code or id.
  It returns `None` where the lookup throws.
- The event key generator and the option value uid resolver are plain functions.
- The indexer becomes its mode and view id. The plugin's indexer call becomes a
  returned `ReindexAction` value.

The generator is modelled as the sequence of maps it yields, plus the error it
throws at the end, if any.

Three behaviours of the code are worth stating plainly:

- On failure the attribute retriever returns the events built before the
  failure, not a fresh empty list. Both lookups that can fail use the request's
  single scope, so this is always the empty list (`BuildEvents`, `Retrieve`).
- An event is "deleted" when no row matches its code, and also when the
  matching row's value is NULL (`RetrieveLastRowWins`).
- The collected parent ids are not deduplicated: the plugin keeps one id per
  changed link, so a parent linked through two changed attributes appears twice
  (`ChangedParentIdsKeepsRepeats`).

## Model

| member | source | states |
|---|---|---|
| PhpString.Explode | app/code/Magento/CatalogPriceDataExporter/Model/Event/ProductPriceEvent.php:75 | splitting the attribute list gives at least one piece, and no piece contains ',' |
| PhpString.ImplodeExplode | app/code/Magento/CatalogPriceDataExporter/Model/Event/ProductPriceEvent.php:75 | joining the pieces with ',' gives the attribute string back: nothing is lost by the split |
| PhpString.ExplodeImplode | app/code/Magento/CatalogPriceDataExporter/Model/Event/ProductPriceEvent.php:75 | splitting the ','-join of comma-free codes gives exactly those codes |
| PhpArray.Unique | app/code/Magento/CatalogPriceDataExporter/Model/Event/ProductPriceEvent.php:75 | deduplication leaves no repeated code and drops no code |
| PhpArray.UniqueOrder | app/code/Magento/CatalogPriceDataExporter/Model/Event/ProductPriceEvent.php:75 | deduplication keeps each code's first occurrence, in the order of first occurrence |
| PhpArray.UniqueOfDistinct | app/code/Magento/CatalogPriceDataExporter/Model/Event/ProductPriceEvent.php:75 | a list without repeats is left as it is |
| ProductPriceEvent.RequestedCodes | app/code/Magento/CatalogPriceDataExporter/Model/Event/ProductPriceEvent.php:75 | the requested codes are at least one, distinct, comma-free, exactly the pieces of the list, in first-mention order |
| ProductPriceEvent.RequestedCodesOfEmpty | app/code/Magento/CatalogPriceDataExporter/Model/Event/ProductPriceEvent.php:75 | an empty attribute list requests the single code "" |
| ProductPriceEvent.RequestedCodesOfList | app/code/Magento/CatalogPriceDataExporter/Model/Event/ProductPriceEvent.php:75 | a comma-joined list of distinct comma-free codes requests exactly those codes |
| ProductPriceEvent.IndexRows | app/code/Magento/CatalogPriceDataExporter/Model/Event/ProductPriceEvent.php:79-81 | each indexed row is filed under its own attribute code |
| PhpArray.IndexByKeys | app/code/Magento/CatalogPriceDataExporter/Model/Event/ProductPriceEvent.php:79-81 | the index has one key per distinct code of the rows, in order of first appearance |
| PhpArray.IndexByLastWins | app/code/Magento/CatalogPriceDataExporter/Model/Event/ProductPriceEvent.php:79-81 | when several rows share a key, the last of them is the one stored |
| ProductPriceEvent.AttributeValue | app/code/Magento/CatalogPriceDataExporter/Model/Event/ProductPriceEvent.php:84 | a code with no indexed row reads as null; a code with a row reads that row's value as it is, NULL included |
| ProductPriceEvent.EventFor | app/code/Magento/CatalogPriceDataExporter/Model/Event/ProductPriceEvent.php:105-118 | an event is "deleted" exactly when it has no new value and "changed" otherwise; it never has an old value; it carries the request's entity id, the scope's website code, the new value and the attribute code |
| ProductPriceEvent.BuildEvents | app/code/Magento/CatalogPriceDataExporter/Model/Event/ProductPriceEvent.php:83-85 | the event loop either fails on the website lookup with no events, or builds event i for requested code i, one per code |
| ProductPriceEvent.Retrieve | app/code/Magento/CatalogPriceDataExporter/Model/Event/ProductPriceEvent.php:69-92 | no error escapes; a failed query or store lookup gives no events; otherwise one event per distinct code, event i for code i, with the request's entity id, the scope's website code, old value null, and "deleted" exactly when the new value is null |
| ProductPriceEvent.RetrieveMissingRowDeletes | app/code/Magento/CatalogPriceDataExporter/Model/Event/ProductPriceEvent.php:84 | a requested code with no row gets a "deleted" event with a null value |
| ProductPriceEvent.RetrieveLastRowWins | app/code/Magento/CatalogPriceDataExporter/Model/Event/ProductPriceEvent.php:79-84 | the last row with a requested code gives that code's event its value, and the event is "deleted" exactly when that value is null |
| PhpArray.Chunk | app/code/Magento/CatalogPriceDataExporter/Model/Provider/PartialReindex/CustomOptionTypePriceEvent.php:85 | the batches concatenate back to the input; each is non-empty and at most BATCH_SIZE long; all but the last are exactly BATCH_SIZE long; empty input gives no batch |
| PhpArray.ChunkCount | app/code/Magento/CatalogPriceDataExporter/Model/Provider/PartialReindex/CustomOptionTypePriceEvent.php:85 | the number of batches is the least number of BATCH_SIZE pieces that covers the input |
| PhpArray.GroupByKeys | app/code/Magento/CatalogPriceDataExporter/Model/Provider/PartialReindex/CustomOptionTypePriceEvent.php:115-122 | appending under keys yields the distinct keys of the input in order of first appearance |
| PhpArray.GroupByLists | app/code/Magento/CatalogPriceDataExporter/Model/Provider/PartialReindex/CustomOptionTypePriceEvent.php:115-122 | a key is present exactly when some element has it, and its list is exactly the values of those elements, in input order |
| PhpArray.GroupByCount | app/code/Magento/CatalogPriceDataExporter/Model/Provider/PartialReindex/CustomOptionTypePriceEvent.php:146 | appending under keys files every element exactly once |
| PhpArray.AppendToCount | app/code/Magento/CatalogPriceDataExporter/Model/Provider/PartialReindex/CustomOptionTypePriceEvent.php:146 | one append adds exactly one entry |
| CustomOptionTypePriceEvent.BuildQueryArguments | app/code/Magento/CatalogPriceDataExporter/Model/Provider/PartialReindex/CustomOptionTypePriceEvent.php:115-122 | the arguments are a well-formed array, and every record's entity id is passed to exactly one scope's query (the lists hold as many ids as the batch has records) |
| CustomOptionTypePriceEvent.QueryArgumentsByScope | app/code/Magento/CatalogPriceDataExporter/Model/Provider/PartialReindex/CustomOptionTypePriceEvent.php:115-122 | the query arguments list each scope of the batch once, in first-appearance order, with exactly that scope's entity ids in input order and repeats kept |
| CustomOptionTypePriceEvent.StoreRows | app/code/Magento/CatalogPriceDataExporter/Model/Provider/PartialReindex/CustomOptionTypePriceEvent.php:91-98 | the fetch loop of one scope writes under that scope only: every other scope keeps its presence and its rows; a non-empty result creates the scope's entry, an empty one changes nothing |
| CustomOptionTypePriceEvent.StoreRowsFresh | app/code/Magento/CatalogPriceDataExporter/Model/Provider/PartialReindex/CustomOptionTypePriceEvent.php:91-98 | a scope's rows are stored under that scope only, keyed by option type id with the last row winning; a scope with no row gets no entry |
| CustomOptionTypePriceEvent.Collect | app/code/Magento/CatalogPriceDataExporter/Model/Provider/PartialReindex/CustomOptionTypePriceEvent.php:88-99 | the query loop fails exactly when one of the scope queries fails |
| CustomOptionTypePriceEvent.CollectRows | app/code/Magento/CatalogPriceDataExporter/Model/Provider/PartialReindex/CustomOptionTypePriceEvent.php:88-99 | a successful query loop keeps the scopes that returned rows, in order, each holding its own query's rows keyed by option type id |
| CustomOptionTypePriceEvent.Pairs | app/code/Magento/CatalogPriceDataExporter/Model/Provider/PartialReindex/CustomOptionTypePriceEvent.php:138-139 | the nested loop visits every row stored under every listed scope, with its scope, and nothing else; it makes exactly as many visits as there are stored rows, so no row is visited twice or skipped |
| CustomOptionTypePriceEvent.EventsData | app/code/Magento/CatalogPriceDataExporter/Model/Provider/PartialReindex/CustomOptionTypePriceEvent.php:134-151 | building the event map fails exactly when the website lookup of some stored row's scope fails |
| CustomOptionTypePriceEvent.Resolve | app/code/Magento/CatalogPriceDataExporter/Model/Provider/PartialReindex/CustomOptionTypePriceEvent.php:139-176 | every stored row gets the key generated from (custom option type price changed, its scope's website, null) and the entry {uid(option id, option type id), price, price type} |
| CustomOptionTypePriceEvent.BuildEventData | app/code/Magento/CatalogPriceDataExporter/Model/Provider/PartialReindex/CustomOptionTypePriceEvent.php:162-176 | the entry of a row is the uid of its (option id, option type id), its price and its price type |
| CustomOptionTypePriceEvent.EventsDataIsGrouping | app/code/Magento/CatalogPriceDataExporter/Model/Provider/PartialReindex/CustomOptionTypePriceEvent.php:134-151 | the event map is the resolved entries grouped by key, so scopes of one website share one key |
| CustomOptionTypePriceEvent.BatchEvents | app/code/Magento/CatalogPriceDataExporter/Model/Provider/PartialReindex/CustomOptionTypePriceEvent.php:84-104 | a batch's map is a well-formed array, and building it throws exactly when one of its scope queries or one of the website lookups of its stored rows throws |
| CustomOptionTypePriceEvent.BatchPairsOwnScope | app/code/Magento/CatalogPriceDataExporter/Model/Provider/PartialReindex/CustomOptionTypePriceEvent.php:88-98 | every row of a batch is filed under a scope of the batch whose own query returned it |
| CustomOptionTypePriceEvent.PairsCount | app/code/Magento/CatalogPriceDataExporter/Model/Provider/PartialReindex/CustomOptionTypePriceEvent.php:138-148 | the stored rows number the sum over scopes of the distinct option type ids fetched |
| CustomOptionTypePriceEvent.BatchEventsCount | app/code/Magento/CatalogPriceDataExporter/Model/Provider/PartialReindex/CustomOptionTypePriceEvent.php:134-151 | a batch's map holds as many events as the sum over its scopes of distinct option type ids fetched |
| CustomOptionTypePriceEvent.BatchEventsEntries | app/code/Magento/CatalogPriceDataExporter/Model/Provider/PartialReindex/CustomOptionTypePriceEvent.php:138-148 | the map's keys appear in order of first use, and each holds exactly the entries resolved to it, in visiting order |
| CustomOptionTypePriceEvent.Emit | app/code/Magento/CatalogPriceDataExporter/Model/Provider/PartialReindex/CustomOptionTypePriceEvent.php:84-105 | given each batch's outcome in turn, the loop yields one map per batch until the first failing batch, then UnableRetrieveData with its fixed message and nothing more; no error exactly when no batch fails |
| CustomOptionTypePriceEvent.Drain | app/code/Magento/CatalogPriceDataExporter/Model/Provider/PartialReindex/CustomOptionTypePriceEvent.php:84-105 | one map per batch is yielded until the first failing batch, then UnableRetrieveData with its fixed message and nothing more; no error exactly when no batch fails |
| CustomOptionTypePriceEvent.Retrieve | app/code/Magento/CatalogPriceDataExporter/Model/Provider/PartialReindex/CustomOptionTypePriceEvent.php:82-106 | empty input yields nothing; map i belongs to batch i; without error there is one map per batch |
| ReindexVariantsAfterSave.IsVariantType | app/code/Magento/ConfigurableProductDataExporter/Plugin/ReindexVariantsAfterSave.php:77 | the type test is strict: only a string type id can qualify, and exactly the strings "simple" and "virtual" do |
| ReindexVariantsAfterSave.AttributeChanged | app/code/Magento/ConfigurableProductDataExporter/Plugin/ReindexVariantsAfterSave.php:83 | an attribute holding the same value before and after is not a change, and neither is one absent on both sides; two strings, two integers or two booleans are a change exactly when they differ; a newly set attribute is a change exactly when it is not null; a string replaced by a non-string, or the reverse, is always a change |
| ReindexVariantsAfterSave.ChangedParentIds | app/code/Magento/ConfigurableProductDataExporter/Plugin/ReindexVariantsAfterSave.php:81-86 | an id is collected exactly when some link to it has a changed attribute; no more ids than links |
| ReindexVariantsAfterSave.ChangedParentIdsAppend | app/code/Magento/ConfigurableProductDataExporter/Plugin/ReindexVariantsAfterSave.php:81-86 | collection follows link order: collecting over two runs of links concatenates the results |
| ReindexVariantsAfterSave.ChangedParentIdsKeepsRepeats | app/code/Magento/ConfigurableProductDataExporter/Plugin/ReindexVariantsAfterSave.php:81-86 | a parent linked through two changed attributes is collected twice, with no deduplication |
| ReindexVariantsAfterSave.StrictComparison | app/code/Magento/ConfigurableProductDataExporter/Plugin/ReindexVariantsAfterSave.php:83 | the comparison is strict: 1 replaced by "1" is a change, while an absent original and a null current value are not |
| ReindexVariantsAfterSave.ReindexVariants | app/code/Magento/ConfigurableProductDataExporter/Plugin/ReindexVariantsAfterSave.php:100-109 | the requested work carries exactly the given ids; it is a change-log append exactly in scheduled mode, and then it targets the indexer's own view id; otherwise it is an immediate reindex of the list |
| ReindexVariantsAfterSave.AfterSave | app/code/Magento/ConfigurableProductDataExporter/Plugin/ReindexVariantsAfterSave.php:72-109 | the incoming result is always returned; nothing happens unless the type is exactly simple or virtual; only the links query can throw; an action happens exactly when the collected ids are non-empty; it carries those ids, is a change-log append exactly in scheduled mode, and then targets the indexer's view id |

## Left out

- The SQL query builders (the product price query, the custom option type price
  query, the linked attributes query) and the database connection are not
  modelled. Each query is modelled as the rows its cursor returns, or a failure.
  No filtering of those rows is assumed.
- A cursor that fails part-way has the same effect as a failing query. No
  partial result of a failed query is observable in any of the three components.
- Logging and dependency-injection wiring are left out: they have no observable
  result.
- PHP generator laziness is not modelled: a consumer that stops early would
  cause fewer queries. The model gives the output of a consumer that reads to
  the end.
- `BATCH_SIZE` is defined in an interface that is not part of this model. It is
  a positive parameter.
- The value of the `EVENT_CUSTOM_OPTION_TYPE_PRICE_CHANGED` constant is also
  defined in that interface, so it is the constructor `CustomOptionTypePriceChanged`.
  The values of the "price changed" and "price deleted" event types are
  `PriceChanged` and `PriceDeleted`.
- The event builder is a plain record constructor. The event key generator and
  the option value uid resolver are total functions: their internals are not
  part of this model, so the exceptions they declare are not modelled. The store
  lookups are the only failing services besides the queries.
- PHP array keys: numeric-string keys are turned into integers, both when an
  entry is written and when it is read, so lookups agree. Scope ids and option
  type ids are integers, and attribute codes are strings.
- PHP `strict_types` type errors (for example a non-string `entity_id` passed
  to the price query) are not modelled. Request fields have their declared types.
- The special keys of `getData` (the empty key returns all data, a key with '/'
  is a path) are not modelled. Attribute codes are taken as plain keys.
- `PhpValue` has no float or array values, so PHP's `===` is modelled as
  equality on the remaining kinds of value.
- Failures of the indexer registry lookup, of the change-log append and of
  `reindexList` are not modelled. The plugin's indexer call is the
  `ReindexAction` it requests.

=== FILE: custom_option_type_price_event.dfy ===
/**
 The batched custom-option price event generator. The index data (pairs of
 entity id and scope id) is cut into batches; per batch, entity ids are grouped
 by scope, each scope's option type prices are fetched and keyed by option type
 id, and one map of events, keyed by an event key derived from the scope's
 website, is yielded.

 The query, the store manager, the event key generator and the option value
 uid resolver are the fields of `Services`. The generator is modelled by the
 sequence of maps it yields, followed by the error it throws, if any.
 */
module CustomOptionTypePriceEvent {
  import opened Wrappers
  import opened PhpArray

  type EntityId = int
  type ScopeId = int
  type OptionId = int
  type OptionTypeId = int
  type WebsiteId = string
  type EventKey = string
  type Uid = string

  /** One record of the index data: an entity id in a scope. */
  datatype IndexData = IndexData(entityId: EntityId, scopeId: ScopeId)

  /** The record kept for each fetched row. */
  datatype OptionTypePrice = OptionTypePrice(
    optionId: OptionId, optionTypeId: OptionTypeId, price: string, priceType: string)

  /** What running one scope's query and reading its cursor to the end produced. */
  datatype Fetch = FetchFailed | Fetched(rows: seq<OptionTypePrice>)

  /** The event type handed to the key generator. */
  datatype EventName = CustomOptionTypePriceChanged

  /** The entry built for one row: its uid, its price and its price type. */
  datatype EventEntry = EventEntry(id: Uid, value: string, priceType: string)

  /**
   The services the generator calls. `websiteOf` is `None` where the store
   lookup throws.
   */
  datatype Services = Services(
    query: (ScopeId, seq<EntityId>) -> Fetch,
    websiteOf: ScopeId -> Option<WebsiteId>,
    keyOf: (EventName, WebsiteId, Option<string>) -> EventKey,
    uidOf: (OptionId, OptionTypeId) -> Uid)

  type QueryArguments = OrderedArray<ScopeId, seq<EntityId>>
  type ScopeRows = OrderedArray<OptionTypeId, OptionTypePrice>
  type BatchRows = OrderedArray<ScopeId, ScopeRows>
  type EventMap = OrderedArray<EventKey, seq<EventEntry>>

  datatype UnableRetrieveData = UnableRetrieveData(message: string)

  const RetrieveErrorMessage := "Unable to retrieve product custom option types price data."

  /** The maps the generator yields, then the error it throws, if any. */
  datatype Stream = Stream(batches: seq<EventMap>, error: Option<UnableRetrieveData>)

  function ScopeOf(d: IndexData): ScopeId { d.scopeId }
  function EntityOf(d: IndexData): EntityId { d.entityId }
  function OptionTypeIdOf(row: OptionTypePrice): OptionTypeId { row.optionTypeId }
  function EventKeyOf(e: (EventKey, EventEntry)): EventKey { e.0 }
  function EventEntryOf(e: (EventKey, EventEntry)): EventEntry { e.1 }

  /** Both levels of a nested array are valid. */
  ghost predicate NestedValid(a: BatchRows) {
    a.Valid() && forall s :: s in a.values ==> a.values[s].Valid()
  }

  /**
   The entity ids of a batch grouped by scope: every record's entity id goes to
   exactly one scope's query. `QueryArgumentsByScope` gives the scopes and lists.
   */
  function BuildQueryArguments(chunk: seq<IndexData>): (args: QueryArguments)
    ensures args.Valid()
    ensures TotalCount(args) == |chunk|
  {
    GroupByCount(chunk, ScopeOf, EntityOf);
    GroupBy(chunk, ScopeOf, EntityOf)
  }

  /**
   The query arguments list the scopes of the batch in order of first
   appearance, each with exactly its entity ids in input order, repetitions kept.
   */
  lemma QueryArgumentsByScope(chunk: seq<IndexData>, s: ScopeId)
    ensures BuildQueryArguments(chunk).keys == Unique(Project(chunk, ScopeOf))
    ensures s in BuildQueryArguments(chunk).values <==> exists i :: 0 <= i < |chunk| && chunk[i].scopeId == s
    ensures s in BuildQueryArguments(chunk).values ==> BuildQueryArguments(chunk).values[s] == Select(chunk, ScopeOf, EntityOf, s)
  {
    GroupByKeys(chunk, ScopeOf, EntityOf);
    GroupByLists(chunk, ScopeOf, EntityOf, s);
  }

  /** The fetch loop of one scope: each row is written under the scope, then under its option type id. */
  function StoreRows(acc: BatchRows, scope: ScopeId, rows: seq<OptionTypePrice>): (r: BatchRows)
    requires NestedValid(acc)
    ensures NestedValid(r)
    ensures |rows| > 0 ==> scope in r.values
    ensures |rows| == 0 ==> r == acc
    ensures forall s :: s != scope ==> (s in r.values <==> s in acc.values)
    ensures forall s :: s != scope && s in acc.values ==> r.values[s] == acc.values[s]
    decreases |rows|
  {
    if |rows| == 0 then acc
    else
      var prev := StoreRows(acc, scope, rows[..|rows| - 1]);
      var row := rows[|rows| - 1];
      var inner := if scope in prev.values then prev.values[scope] else Empty();
      Put(prev, scope, Put(inner, row.optionTypeId, row))
  }

  /**
   The rows of a scope not seen before land under that scope only, keyed by
   option type id with the last row winning; no row creates no entry.
   */
  lemma {:induction false} StoreRowsFresh(acc: BatchRows, scope: ScopeId, rows: seq<OptionTypePrice>)
    requires NestedValid(acc) && scope !in acc.values
    ensures StoreRows(acc, scope, rows) == if |rows| == 0 then acc else Put(acc, scope, IndexBy(rows, OptionTypeIdOf))
    decreases |rows|
  {
    if |rows| > 0 {
      var init := rows[..|rows| - 1];
      var row := rows[|rows| - 1];
      StoreRowsFresh(acc, scope, init);
      if |init| == 0 {
        assert IndexBy(rows, OptionTypeIdOf) == Put(Empty(), row.optionTypeId, row);
      } else {
        PutPut(acc, scope, IndexBy(init, OptionTypeIdOf), IndexBy(rows, OptionTypeIdOf));
      }
    }
  }

  /** The rows `query` returns for `scope` with its ids; only called on fetched scopes. */
  function ScopeFetch(svc: Services, args: QueryArguments, scope: ScopeId): Fetch
    requires scope in args.values
  {
    svc.query(scope, args.values[scope])
  }

  /** The scopes, in order, whose query returned at least one row. */
  function ScopesWithRows(svc: Services, args: QueryArguments, scopes: seq<ScopeId>): seq<ScopeId>
    requires forall i :: 0 <= i < |scopes| ==> scopes[i] in args.values
    decreases |scopes|
  {
    if |scopes| == 0 then []
    else
      var s := scopes[|scopes| - 1];
      ScopesWithRows(svc, args, scopes[..|scopes| - 1])
        + (if ScopeFetch(svc, args, s).Fetched? && |ScopeFetch(svc, args, s).rows| > 0 then [s] else [])
  }

  /**
   The query loop over the scopes `scopes`, one query per scope with that
   scope's entity ids: `None` when a query throws.
   */
  function Collect(svc: Services, args: QueryArguments, scopes: seq<ScopeId>): (r: Option<BatchRows>)
    requires forall i :: 0 <= i < |scopes| ==> scopes[i] in args.values
    ensures r.Some? ==> NestedValid(r.value)
    ensures r.None? <==> exists i :: 0 <= i < |scopes| && ScopeFetch(svc, args, scopes[i]).FetchFailed?
    decreases |scopes|
  {
    if |scopes| == 0 then Some(Empty())
    else
      var init := scopes[..|scopes| - 1];
      var s := scopes[|scopes| - 1];
      assert forall i :: 0 <= i < |init| ==> init[i] == scopes[i];
      match Collect(svc, args, init)
      case None =>
        var j :| 0 <= j < |init| && ScopeFetch(svc, args, init[j]).FetchFailed?;
        assert ScopeFetch(svc, args, scopes[j]).FetchFailed?;
        None
      case Some(acc) =>
        match ScopeFetch(svc, args, s)
        case FetchFailed =>
          assert ScopeFetch(svc, args, scopes[|scopes| - 1]).FetchFailed?;
          None
        case Fetched(rows) =>
          assert forall i :: 0 <= i < |scopes| ==> ScopeFetch(svc, args, scopes[i]).Fetched?;
          Some(StoreRows(acc, s, rows))
  }

  /**
   With distinct scopes, a successful query loop keeps exactly the scopes whose
   query returned rows, in order, and under each the rows of that scope's own
   query keyed by option type id.
   */
  lemma {:induction false} CollectRows(svc: Services, args: QueryArguments, scopes: seq<ScopeId>)
    requires forall i :: 0 <= i < |scopes| ==> scopes[i] in args.values
    requires Distinct(scopes)
    requires Collect(svc, args, scopes).Some?
    ensures Collect(svc, args, scopes).value.keys == ScopesWithRows(svc, args, scopes)
    ensures forall s :: s in Collect(svc, args, scopes).value.values ==>
      && s in scopes
      && ScopeFetch(svc, args, s).Fetched?
      && Collect(svc, args, scopes).value.values[s] == IndexBy(ScopeFetch(svc, args, s).rows, OptionTypeIdOf)
    decreases |scopes|
  {
    if |scopes| > 0 {
      var init := scopes[..|scopes| - 1];
      var s := scopes[|scopes| - 1];
      assert scopes == init + [s];
      assert Distinct(init) by {
        forall i, j | 0 <= i < j < |init| ensures init[i] != init[j] {
          assert scopes[i] != scopes[j];
        }
      }
      assert s !in init by {
        forall i | 0 <= i < |init| ensures init[i] != s {
          assert scopes[i] != scopes[|scopes| - 1];
        }
      }
      CollectRows(svc, args, init);
      var acc := Collect(svc, args, init).value;
      assert s !in acc.values;
      var rows := ScopeFetch(svc, args, s).rows;
      var r := StoreRows(acc, s, rows);
      assert Collect(svc, args, scopes) == Some(r);
      StoreRowsFresh(acc, s, rows);
      forall t | t in r.values
        ensures t in scopes && ScopeFetch(svc, args, t).Fetched? && r.values[t] == IndexBy(ScopeFetch(svc, args, t).rows, OptionTypeIdOf)
      {
        if t != s {
          assert t in acc.values;
        }
      }
    }
  }

  /** The entries of one scope, in the order of their option type ids. */
  function ScopePairs(scope: ScopeId, inner: ScopeRows): (ps: seq<(ScopeId, OptionTypePrice)>)
    requires inner.Valid()
    ensures |ps| == |inner.keys|
    ensures forall i :: 0 <= i < |ps| ==> ps[i] == (scope, inner.values[inner.keys[i]])
  {
    seq(|inner.keys|, i requires 0 <= i < |inner.keys| => (scope, inner.values[inner.keys[i]]))
  }

  /** Every row stored in `inner` is visited with its scope. */
  lemma ScopePairsComplete(scope: ScopeId, inner: ScopeRows, k: OptionTypeId)
    requires inner.Valid() && k in inner.values
    ensures (scope, inner.values[k]) in ScopePairs(scope, inner)
  {
    var j :| 0 <= j < |inner.keys| && inner.keys[j] == k;
    assert ScopePairs(scope, inner)[j] == (scope, inner.values[k]);
  }

  /** The number of rows stored under the scopes `scopes`. */
  function StoredCount(res: BatchRows, scopes: seq<ScopeId>): nat
    requires forall i :: 0 <= i < |scopes| ==> scopes[i] in res.values
    decreases |scopes|
  {
    if |scopes| == 0 then 0
    else StoredCount(res, scopes[..|scopes| - 1]) + |res.values[scopes[|scopes| - 1]].keys|
  }

  /** One more scope adds the rows stored under it. */
  lemma StoredCountSnoc(res: BatchRows, scopes: seq<ScopeId>, s: ScopeId)
    requires forall i :: 0 <= i < |scopes| ==> scopes[i] in res.values
    requires s in res.values
    ensures StoredCount(res, scopes + [s]) == StoredCount(res, scopes) + |res.values[s].keys|
  {
    assert (scopes + [s])[..|scopes|] == scopes;
  }

  /**
   The nested loop of the event map builder, flattened: every stored row of every
   scope in `scopes` with its scope, scope by scope, and nothing else.
   */
  function Pairs(res: BatchRows, scopes: seq<ScopeId>): (ps: seq<(ScopeId, OptionTypePrice)>)
    requires NestedValid(res)
    requires forall i :: 0 <= i < |scopes| ==> scopes[i] in res.values
    ensures |ps| == StoredCount(res, scopes)
    ensures forall i :: 0 <= i < |ps| ==> ps[i].0 in scopes && ps[i].1 in res.values[ps[i].0].values.Values
    ensures forall i, k :: 0 <= i < |scopes| && k in res.values[scopes[i]].values ==>
      (scopes[i], res.values[scopes[i]].values[k]) in ps
    decreases |scopes|
  {
    if |scopes| == 0 then []
    else
      var init := scopes[..|scopes| - 1];
      var s := scopes[|scopes| - 1];
      assert scopes == init + [s];
      var before := Pairs(res, init);
      var here := ScopePairs(s, res.values[s]);
      PairsComplete(res, init, s, before, here);
      before + here
  }

  /** The step of `Pairs`: rows of earlier scopes are kept, and the last scope's rows all come in. */
  lemma PairsComplete(
    res: BatchRows, init: seq<ScopeId>, s: ScopeId,
    before: seq<(ScopeId, OptionTypePrice)>, here: seq<(ScopeId, OptionTypePrice)>)
    requires NestedValid(res) && s in res.values
    requires forall i :: 0 <= i < |init| ==> init[i] in res.values
    requires here == ScopePairs(s, res.values[s])
    requires forall i, k :: 0 <= i < |init| && k in res.values[init[i]].values ==>
      (init[i], res.values[init[i]].values[k]) in before
    ensures forall i, k :: 0 <= i < |init + [s]| && k in res.values[(init + [s])[i]].values ==>
      ((init + [s])[i], res.values[(init + [s])[i]].values[k]) in before + here
  {
    var scopes := init + [s];
    forall i, k | 0 <= i < |scopes| && k in res.values[scopes[i]].values
      ensures (scopes[i], res.values[scopes[i]].values[k]) in before + here
    {
      if i < |init| {
        assert scopes[i] == init[i];
      } else {
        ScopePairsComplete(s, res.values[s], k);
      }
    }
  }

  /** The entry of one row: the option value's uid, its price and its price type. */
  function BuildEventData(svc: Services, row: OptionTypePrice): (e: EventEntry)
    ensures e.id == svc.uidOf(row.optionId, row.optionTypeId)
    ensures e.value == row.price && e.priceType == row.priceType
  {
    EventEntry(svc.uidOf(row.optionId, row.optionTypeId), row.price, row.priceType)
  }

  /**
   The loop of the event map builder: for each stored row, the website lookup of
   its scope (which may throw), the event key, then the row's entry appended
   under that key.
   */
  function EventsData(svc: Services, pairs: seq<(ScopeId, OptionTypePrice)>): (r: Option<EventMap>)
    ensures r.Some? ==> r.value.Valid()
    ensures r.None? <==> exists i :: 0 <= i < |pairs| && svc.websiteOf(pairs[i].0).None?
    decreases |pairs|
  {
    if |pairs| == 0 then Some(Empty())
    else
      var p := pairs[|pairs| - 1];
      match EventsData(svc, pairs[..|pairs| - 1])
      case None => None
      case Some(events) =>
        match svc.websiteOf(p.0)
        case None => None
        case Some(website) =>
          var key := svc.keyOf(CustomOptionTypePriceChanged, website, None);
          Some(AppendTo(events, key, BuildEventData(svc, p.1)))
  }

  /**
   The event key and the entry of every stored row, or `None` when a website
   lookup fails.
   */
  function Resolve(svc: Services, pairs: seq<(ScopeId, OptionTypePrice)>): (r: Option<seq<(EventKey, EventEntry)>>)
    ensures r.None? <==> exists i :: 0 <= i < |pairs| && svc.websiteOf(pairs[i].0).None?
    ensures r.Some? ==> |r.value| == |pairs|
    ensures r.Some? ==> forall i :: 0 <= i < |pairs| ==>
      && svc.websiteOf(pairs[i].0).Some?
      && r.value[i].0 == svc.keyOf(CustomOptionTypePriceChanged, svc.websiteOf(pairs[i].0).value, None)
      && r.value[i].1 == EventEntry(svc.uidOf(pairs[i].1.optionId, pairs[i].1.optionTypeId), pairs[i].1.price, pairs[i].1.priceType)
    decreases |pairs|
  {
    if |pairs| == 0 then Some([])
    else
      var p := pairs[|pairs| - 1];
      match Resolve(svc, pairs[..|pairs| - 1])
      case None => None
      case Some(kv) =>
        match svc.websiteOf(p.0)
        case None => None
        case Some(website) =>
          Some(kv + [(svc.keyOf(CustomOptionTypePriceChanged, website, None), BuildEventData(svc, p.1))])
  }

  /** `getEventsData` groups the resolved entries by event key. */
  lemma {:induction false} EventsDataIsGrouping(svc: Services, pairs: seq<(ScopeId, OptionTypePrice)>)
    ensures EventsData(svc, pairs) ==
      match Resolve(svc, pairs)
      case None => None
      case Some(kv) => Some(GroupBy(kv, EventKeyOf, EventEntryOf))
    decreases |pairs|
  {
    if |pairs| > 0 {
      EventsDataIsGrouping(svc, pairs[..|pairs| - 1]);
      match Resolve(svc, pairs)
      case None =>
      case Some(kv) =>
        assert kv[..|kv| - 1] == Resolve(svc, pairs[..|pairs| - 1]).value;
    }
  }

  /**
   Every row a batch stores, with its scope, in the order `getEventsData`
   visits them; `None` when one of the batch's queries throws.
   */
  function BatchPairs(svc: Services, chunk: seq<IndexData>): Option<seq<(ScopeId, OptionTypePrice)>> {
    var args := BuildQueryArguments(chunk);
    match Collect(svc, args, args.keys)
    case None => None
    case Some(res) => Some(Pairs(res, res.keys))
  }

  /** The map yielded for one batch, or `None` when building it throws. */
  function BatchEvents(svc: Services, chunk: seq<IndexData>): (r: Option<EventMap>)
    ensures r.Some? ==> r.value.Valid()
    ensures var args := BuildQueryArguments(chunk);
      r.None? <==>
        || (exists i :: 0 <= i < |args.keys| && ScopeFetch(svc, args, args.keys[i]).FetchFailed?)
        || (exists p :: p in BatchPairs(svc, chunk).value && svc.websiteOf(p.0).None?)
  {
    match BatchPairs(svc, chunk)
    case None => None
    case Some(pairs) => EventsData(svc, pairs)
  }

  /**
   A batch never files a row under a scope other than the one whose query
   returned it, and that scope belongs to the batch.
   */
  lemma BatchPairsOwnScope(svc: Services, chunk: seq<IndexData>)
    requires BatchPairs(svc, chunk).Some?
    ensures forall p :: p in BatchPairs(svc, chunk).value ==>
      && p.0 in BuildQueryArguments(chunk).values
      && ScopeFetch(svc, BuildQueryArguments(chunk), p.0).Fetched?
      && p.1 in ScopeFetch(svc, BuildQueryArguments(chunk), p.0).rows
  {
    var args := BuildQueryArguments(chunk);
    var res := Collect(svc, args, args.keys).value;
    CollectRows(svc, args, args.keys);
    var pairs := Pairs(res, res.keys);
    forall p | p in pairs
      ensures p.0 in args.values && ScopeFetch(svc, args, p.0).Fetched? && p.1 in ScopeFetch(svc, args, p.0).rows
    {
      var inner := res.values[p.0];
      assert inner == IndexBy(ScopeFetch(svc, args, p.0).rows, OptionTypeIdOf);
      var k :| k in inner.values && inner.values[k] == p.1;
    }
  }

  /** Number of distinct option type ids the query of scope `s` returns; none when it fails. */
  function FetchedTypes(svc: Services, args: QueryArguments, s: ScopeId): nat
    requires s in args.values
  {
    match ScopeFetch(svc, args, s)
    case FetchFailed => 0
    case Fetched(rows) => |Unique(Project(rows, OptionTypeIdOf))|
  }

  /** Number of distinct option type ids the queries of `scopes` return. */
  function DistinctOptionTypes(svc: Services, args: QueryArguments, scopes: seq<ScopeId>): nat
    requires forall i :: 0 <= i < |scopes| ==> scopes[i] in args.values
    decreases |scopes|
  {
    if |scopes| == 0 then 0
    else DistinctOptionTypes(svc, args, scopes[..|scopes| - 1]) + FetchedTypes(svc, args, scopes[|scopes| - 1])
  }

  /** The rows of a scope `s` are stored under `s`, keyed by option type id. */
  ghost predicate StoredAsFetched(svc: Services, args: QueryArguments, res: BatchRows, s: ScopeId) {
    && s in args.values
    && s in res.values
    && ScopeFetch(svc, args, s).Fetched?
    && res.values[s] == IndexBy(ScopeFetch(svc, args, s).rows, OptionTypeIdOf)
  }

  /**
   The rows visited for the scopes that returned rows number the distinct option
   type ids their queries returned, summed over the scopes.
   */
  lemma PairsCount(svc: Services, args: QueryArguments, res: BatchRows, scopes: seq<ScopeId>)
    requires NestedValid(res)
    requires forall i :: 0 <= i < |scopes| ==> scopes[i] in args.values
    requires forall i :: 0 <= i < |ScopesWithRows(svc, args, scopes)| ==> ScopesWithRows(svc, args, scopes)[i] in res.values
    requires forall t :: t in ScopesWithRows(svc, args, scopes) ==> StoredAsFetched(svc, args, res, t)
    ensures |Pairs(res, ScopesWithRows(svc, args, scopes))| == DistinctOptionTypes(svc, args, scopes)
  {
    StoredCountMatches(svc, args, res, scopes);
  }

  /** A scope stored as fetched holds one row per distinct option type id its query returned. */
  lemma StoredScopeCount(svc: Services, args: QueryArguments, res: BatchRows, s: ScopeId)
    requires StoredAsFetched(svc, args, res, s)
    ensures |res.values[s].keys| == FetchedTypes(svc, args, s)
  {
    IndexByKeys(ScopeFetch(svc, args, s).rows, OptionTypeIdOf);
  }

  /** `StoredCount` over the scopes that returned rows equals `DistinctOptionTypes`. */
  lemma {:induction false} StoredCountMatches(svc: Services, args: QueryArguments, res: BatchRows, scopes: seq<ScopeId>)
    requires forall i :: 0 <= i < |scopes| ==> scopes[i] in args.values
    requires forall i :: 0 <= i < |ScopesWithRows(svc, args, scopes)| ==> ScopesWithRows(svc, args, scopes)[i] in res.values
    requires forall t :: t in ScopesWithRows(svc, args, scopes) ==> StoredAsFetched(svc, args, res, t)
    ensures StoredCount(res, ScopesWithRows(svc, args, scopes)) == DistinctOptionTypes(svc, args, scopes)
    decreases |scopes|
  {
    if |scopes| > 0 {
      var init := scopes[..|scopes| - 1];
      var s := scopes[|scopes| - 1];
      var before := ScopesWithRows(svc, args, init);
      var after := ScopesWithRows(svc, args, scopes);
      var fetch := ScopeFetch(svc, args, s);
      var grows := fetch.Fetched? && |fetch.rows| > 0;
      assert after == before + (if grows then [s] else []);
      assert forall i :: 0 <= i < |before| ==> before[i] == after[i];
      StoredCountMatches(svc, args, res, init);
      if grows {
        assert after[|before|] == s;
        StoredCountSnoc(res, before, s);
        StoredScopeCount(svc, args, res, s);
      } else {
        assert after == before;
        if fetch.Fetched? {
          assert Project(fetch.rows, OptionTypeIdOf) == [];
        }
        assert FetchedTypes(svc, args, s) == 0;
      }
    }
  }

  /**
   A batch's map holds one event per distinct option type id each of its
   scope queries returned.
   */
  lemma BatchEventsCount(svc: Services, chunk: seq<IndexData>)
    requires BatchEvents(svc, chunk).Some?
    ensures TotalCount(BatchEvents(svc, chunk).value)
      == DistinctOptionTypes(svc, BuildQueryArguments(chunk), BuildQueryArguments(chunk).keys)
  {
    var args := BuildQueryArguments(chunk);
    var res := Collect(svc, args, args.keys).value;
    var pairs := Pairs(res, res.keys);
    assert BatchPairs(svc, chunk) == Some(pairs);
    CollectedAsFetched(svc, args);
    PairsCount(svc, args, res, args.keys);
    EventsDataIsGrouping(svc, pairs);
    GroupByCount(Resolve(svc, pairs).value, EventKeyOf, EventEntryOf);
  }

  /** After a successful query loop over all scopes, each kept scope holds its own query's rows. */
  lemma CollectedAsFetched(svc: Services, args: QueryArguments)
    requires args.Valid()
    requires Collect(svc, args, args.keys).Some?
    ensures var res := Collect(svc, args, args.keys).value;
      && res.keys == ScopesWithRows(svc, args, args.keys)
      && (forall i :: 0 <= i < |res.keys| ==> res.keys[i] in res.values)
      && (forall t :: t in res.keys ==> StoredAsFetched(svc, args, res, t))
  {
    CollectRows(svc, args, args.keys);
  }

  /**
   Under each event key a batch's map holds, in visiting order, the entries
   whose scope's website generated that key; the keys appear in order of first use.
   */
  lemma BatchEventsEntries(svc: Services, chunk: seq<IndexData>, key: EventKey)
    requires BatchEvents(svc, chunk).Some?
    ensures Resolve(svc, BatchPairs(svc, chunk).value).Some?
    ensures BatchEvents(svc, chunk).value.keys == Unique(Project(Resolve(svc, BatchPairs(svc, chunk).value).value, EventKeyOf))
    ensures key in BatchEvents(svc, chunk).value.values ==>
      BatchEvents(svc, chunk).value.values[key] == Select(Resolve(svc, BatchPairs(svc, chunk).value).value, EventKeyOf, EventEntryOf, key)
  {
    var pairs := BatchPairs(svc, chunk).value;
    EventsDataIsGrouping(svc, pairs);
    var kv := Resolve(svc, pairs).value;
    GroupByKeys(kv, EventKeyOf, EventEntryOf);
    GroupByLists(kv, EventKeyOf, EventEntryOf, key);
  }

  /**
   The generator's loop, consumed to the end, given the outcome of each batch in
   turn: a map per batch until the first batch that throws, then `UnableRetrieveData`.
   */
  function Emit(outcomes: seq<Option<EventMap>>): (st: Stream)
    ensures st.error.None? ==> |st.batches| == |outcomes|
    ensures st.error.Some? ==>
      && |st.batches| < |outcomes|
      && outcomes[|st.batches|].None?
      && st.error.value == UnableRetrieveData(RetrieveErrorMessage)
    ensures forall i :: 0 <= i < |st.batches| ==> outcomes[i] == Some(st.batches[i])
    ensures st.error.Some? <==> exists i :: 0 <= i < |outcomes| && outcomes[i].None?
    decreases |outcomes|
  {
    if |outcomes| == 0 then Stream([], None)
    else
      match outcomes[0]
      case None => Stream([], Some(UnableRetrieveData(RetrieveErrorMessage)))
      case Some(events) =>
        var rest := Emit(outcomes[1..]);
        assert forall i :: 1 <= i < |outcomes| ==> outcomes[i] == outcomes[1..][i - 1];
        Stream([events] + rest.batches, rest.error)
  }

  /** The generator over the batches `chunks`, consumed to the end. */
  function Drain(svc: Services, chunks: seq<seq<IndexData>>): (st: Stream)
    ensures st.error.None? ==> |st.batches| == |chunks|
    ensures st.error.Some? ==>
      && |st.batches| < |chunks|
      && BatchEvents(svc, chunks[|st.batches|]).None?
      && st.error.value == UnableRetrieveData(RetrieveErrorMessage)
    ensures forall i :: 0 <= i < |st.batches| ==> BatchEvents(svc, chunks[i]) == Some(st.batches[i])
    ensures st.error.Some? <==> exists i :: 0 <= i < |chunks| && BatchEvents(svc, chunks[i]).None?
  {
    Emit(seq(|chunks|, i requires 0 <= i < |chunks| => BatchEvents(svc, chunks[i])))
  }

  /** `retrieve`: batches of `batchSize` consecutive index records. */
  function Retrieve(svc: Services, indexData: seq<IndexData>, batchSize: nat): (st: Stream)
    requires batchSize > 0
    ensures |indexData| == 0 ==> st == Stream([], None)
    ensures |st.batches| <= |Chunk(indexData, batchSize)|
    ensures st.error.None? ==> |st.batches| == |Chunk(indexData, batchSize)|
    ensures forall i :: 0 <= i < |st.batches| ==> BatchEvents(svc, Chunk(indexData, batchSize)[i]) == Some(st.batches[i])
  {
    Drain(svc, Chunk(indexData, batchSize))
  }
}

=== FILE: php_array.dfy ===
/**
 This module models the parts of the PHP array runtime that the exporter code
 relies on: `array_unique`, `array_chunk`, and the ordered hash that backs every
 PHP array, with its two write forms `$a[$k] = $v` and `$a[$k][] = $v`.
 */
module PhpArray {

  /** No value occurs twice in `s`. */
  predicate Distinct<T(==)>(s: seq<T>) {
    forall i, j :: 0 <= i < j < |s| ==> s[i] != s[j]
  }

  /** Position of the first occurrence of `x` in `s`. */
  function FirstIndex<T(==)>(s: seq<T>, x: T): (i: nat)
    requires x in s
    ensures i < |s| && s[i] == x
    ensures x !in s[..i]
  {
    if s[0] == x then 0
    else
      var i := FirstIndex(s[1..], x);
      assert s[..i + 1] == [s[0]] + s[1..][..i];
      i + 1
  }

  /** A position holding `x` with no earlier `x` is the first index of `x`. */
  lemma FirstIndexUnique<T(!new)>(s: seq<T>, x: T, i: nat)
    requires i < |s| && s[i] == x && x !in s[..i]
    ensures FirstIndex(s, x) == i
  {
  }

  /** Values already present in a prefix keep their first index in the whole sequence. */
  lemma FirstIndexInPrefix<T(!new)>(s: seq<T>, n: nat, x: T)
    requires n <= |s| && x in s[..n]
    ensures x in s && FirstIndex(s, x) == FirstIndex(s[..n], x) < n
  {
    var i := FirstIndex(s[..n], x);
    assert s[..n][..i] == s[..i];
    FirstIndexUnique(s, x, i);
  }

  /**
   `array_unique`: keeps the first occurrence of every value and the relative
   order of those first occurrences.
   */
  function Unique<T(==,!new)>(s: seq<T>): (r: seq<T>)
    ensures Distinct(r)
    ensures forall x :: x in r <==> x in s
    decreases |s|
  {
    if |s| == 0 then []
    else
      var init := s[..|s| - 1];
      var last := s[|s| - 1];
      var r := Unique(init);
      assert forall x :: x in s <==> x in init || x == last by {
        assert s == init + [last];
      }
      if last in r then r else r + [last]
  }

  /** `array_unique` lists the kept values in the order of their first occurrence. */
  lemma {:induction false} UniqueOrder<T(!new)>(s: seq<T>)
    ensures forall i, j :: 0 <= i < j < |Unique(s)| ==> FirstIndex(s, Unique(s)[i]) < FirstIndex(s, Unique(s)[j])
    decreases |s|
  {
    if |s| > 0 {
      var init := s[..|s| - 1];
      var last := s[|s| - 1];
      UniqueOrder(init);
      assert forall x :: x in init ==> FirstIndex(s, x) == FirstIndex(init, x) < |s| - 1 by {
        forall x | x in init {
          FirstIndexInPrefix(s, |s| - 1, x);
        }
      }
      if last !in init {
        FirstIndexUnique(s, last, |s| - 1);
      }
    }
  }

  /** `array_unique` leaves a sequence without repetitions as it is. */
  lemma {:induction false} UniqueOfDistinct<T(!new)>(s: seq<T>)
    requires Distinct(s)
    ensures Unique(s) == s
    decreases |s|
  {
    if |s| > 0 {
      var init := s[..|s| - 1];
      UniqueOfDistinct(init);
      assert s[|s| - 1] !in init;
      assert s == init + [s[|s| - 1]];
    }
  }

  /** Appending a value to a sequence appends it to the result of `array_unique` unless it is a repetition. */
  lemma UniqueSnoc<T(!new)>(s: seq<T>, x: T)
    ensures Unique(s + [x]) == if x in s then Unique(s) else Unique(s) + [x]
  {
    assert (s + [x])[..|s|] == s;
  }

  /** The sequence of `f(x)` for the elements `x` of `s`, in order. */
  function Project<T, K>(s: seq<T>, f: T -> K): (r: seq<K>)
    ensures |r| == |s|
    ensures forall i :: 0 <= i < |s| ==> r[i] == f(s[i])
    decreases |s|
  {
    if |s| == 0 then [] else Project(s[..|s| - 1], f) + [f(s[|s| - 1])]
  }

  /** Concatenation of a sequence of sequences. */
  function Flatten<T>(ss: seq<seq<T>>): seq<T>
    decreases |ss|
  {
    if |ss| == 0 then [] else ss[0] + Flatten(ss[1..])
  }

  /**
   `array_chunk($s, $size)`: consecutive pieces of `size` elements, the last
   one possibly shorter; nothing for an empty input.
   */
  function Chunk<T>(s: seq<T>, size: nat): (r: seq<seq<T>>)
    requires size > 0
    ensures Flatten(r) == s
    ensures forall i :: 0 <= i < |r| ==> 0 < |r[i]| <= size
    ensures forall i :: 0 <= i < |r| - 1 ==> |r[i]| == size
    ensures |s| == 0 <==> |r| == 0
    decreases |s|
  {
    if |s| == 0 then []
    else if |s| <= size then
      assert [s][1..] == [];
      [s]
    else
      var rest := Chunk(s[size..], size);
      assert ([s[..size]] + rest)[1..] == rest;
      [s[..size]] + rest
  }

  /** `array_chunk` yields the least number of chunks of `size` that cover `s`. */
  lemma {:induction false} ChunkCount<T>(s: seq<T>, size: nat)
    requires size > 0
    ensures (|Chunk(s, size)| - 1) * size < |s| <= |Chunk(s, size)| * size
    decreases |s|
  {
    if |s| == 0 {
      assert |Chunk(s, size)| == 0;
    } else if |s| <= size {
      assert |Chunk(s, size)| == 1;
    } else {
      var n := |Chunk(s[size..], size)|;
      ChunkCount(s[size..], size);
      assert |Chunk(s, size)| == n + 1;
      assert (n + 1) * size == n * size + size;
      assert (n - 1) * size == n * size - size;
    }
  }

  /**
   The ordered hash behind a PHP array: `keys` is the iteration order and
   `values` the content.
   */
  datatype OrderedArray<K(==,!new), V> = OrderedArray(keys: seq<K>, values: map<K, V>)
  {
    /** Each key is listed once, and exactly the keys of `values` are listed. */
    ghost predicate Valid() {
      Distinct(keys) && forall k :: k in values <==> k in keys
    }
  }

  /** The empty array `[]`. */
  function Empty<K(==,!new), V>(): (a: OrderedArray<K, V>)
    ensures a.Valid() && |a.keys| == 0
  {
    OrderedArray([], map[])
  }

  /**
   `$a[$k] = $v`: an existing key keeps its place in the iteration order and
   gets the new value; a new key is added at the end.
   */
  function Put<K(==,!new), V>(a: OrderedArray<K, V>, k: K, v: V): (r: OrderedArray<K, V>)
    requires a.Valid()
    ensures r.Valid()
    ensures k in r.values && r.values[k] == v
    ensures forall k' :: k' != k ==> (k' in r.values <==> k' in a.values)
    ensures forall k' :: k' != k && k' in a.values ==> r.values[k'] == a.values[k']
    ensures k in a.values ==> r.keys == a.keys
    ensures k !in a.values ==> r.keys == a.keys + [k]
  {
    if k in a.values then OrderedArray(a.keys, a.values[k := v])
    else OrderedArray(a.keys + [k], a.values[k := v])
  }

  /** Writing a key twice keeps the second value only. */
  lemma PutPut<K(!new), V>(a: OrderedArray<K, V>, k: K, x: V, y: V)
    requires a.Valid()
    ensures Put(Put(a, k, x), k, y) == Put(a, k, y)
  {
    assert a.values[k := x][k := y] == a.values[k := y];
  }

  /** `$a[$k][] = $v`: appends `v` to the list stored under `k`, creating it if absent. */
  function AppendTo<K(==,!new), V>(a: OrderedArray<K, seq<V>>, k: K, v: V): (r: OrderedArray<K, seq<V>>)
    requires a.Valid()
    ensures r.Valid()
  {
    Put(a, k, (if k in a.values then a.values[k] else []) + [v])
  }

  /** The `val` of every element of `s` whose `key` is `k`, in order, repetitions kept. */
  function Select<T, K(==,!new), V>(s: seq<T>, key: T -> K, val: T -> V, k: K): seq<V>
    decreases |s|
  {
    if |s| == 0 then []
    else Select(s[..|s| - 1], key, val, k) + (if key(s[|s| - 1]) == k then [val(s[|s| - 1])] else [])
  }

  /**
   The loop `foreach ($s as $x) { $a[key($x)][] = val($x); }` started from `[]`.
   `GroupByKeys`, `GroupByLists` and `GroupByCount` say what it builds.
   */
  function GroupBy<T, K(==,!new), V>(s: seq<T>, key: T -> K, val: T -> V): (r: OrderedArray<K, seq<V>>)
    ensures r.Valid()
    decreases |s|
  {
    if |s| == 0 then Empty()
    else AppendTo(GroupBy(s[..|s| - 1], key, val), key(s[|s| - 1]), val(s[|s| - 1]))
  }

  /** The keys of a grouping are the distinct keys of the input, in order of first appearance. */
  lemma {:induction false} GroupByKeys<T, K(!new), V>(s: seq<T>, key: T -> K, val: T -> V)
    ensures GroupBy(s, key, val).keys == Unique(Project(s, key))
    decreases |s|
  {
    if |s| > 0 {
      var init, last := s[..|s| - 1], s[|s| - 1];
      GroupByKeys(init, key, val);
      UniqueSnoc(Project(init, key), key(last));
      assert Project(s, key) == Project(init, key) + [key(last)];
    }
  }

  /** Under each key a grouping holds exactly the values of the elements with that key, in input order. */
  lemma {:induction false} GroupByLists<T, K(!new), V>(s: seq<T>, key: T -> K, val: T -> V, k: K)
    ensures k in GroupBy(s, key, val).values <==> exists i :: 0 <= i < |s| && key(s[i]) == k
    ensures k in GroupBy(s, key, val).values ==> GroupBy(s, key, val).values[k] == Select(s, key, val, k)
    decreases |s|
  {
    if |s| > 0 {
      var init, last := s[..|s| - 1], s[|s| - 1];
      GroupByLists(init, key, val, k);
      if exists i :: 0 <= i < |s| && key(s[i]) == k {
        var i :| 0 <= i < |s| && key(s[i]) == k;
        if i < |s| - 1 {
          assert key(init[i]) == k;
        }
      }
      if exists i :: 0 <= i < |init| && key(init[i]) == k {
        var i :| 0 <= i < |init| && key(init[i]) == k;
        assert key(s[i]) == k;
      } else {
        SelectNone(init, key, val, k);
      }
      assert Select(s, key, val, k) == Select(init, key, val, k) + (if key(last) == k then [val(last)] else []);
    }
  }

  /** Nothing is selected for a key that no element has. */
  lemma {:induction false} SelectNone<T, K(!new), V>(s: seq<T>, key: T -> K, val: T -> V, k: K)
    requires forall i :: 0 <= i < |s| ==> key(s[i]) != k
    ensures Select(s, key, val, k) == []
    decreases |s|
  {
    if |s| > 0 {
      SelectNone(s[..|s| - 1], key, val, k);
    }
  }

  /** No element after position `i` has the key of `s[i]`. */
  predicate LastOfKey<T, K(==,!new)>(s: seq<T>, key: T -> K, i: nat)
    requires i < |s|
  {
    forall j :: i < j < |s| ==> key(s[j]) != key(s[i])
  }

  /**
   The loop `foreach ($s as $x) { $a[key($x)] = $x; }` started from `[]`:
   one entry per key holding an element with that key. `IndexByKeys` and
   `IndexByLastWins` say which keys, in which order, and which element.
   */
  function IndexBy<T, K(==,!new)>(s: seq<T>, key: T -> K): (r: OrderedArray<K, T>)
    ensures r.Valid()
    ensures forall k :: k in r.values ==> key(r.values[k]) == k && r.values[k] in s
    decreases |s|
  {
    if |s| == 0 then Empty()
    else
      var prev := IndexBy(s[..|s| - 1], key);
      assert forall x :: x in s[..|s| - 1] ==> x in s;
      Put(prev, key(s[|s| - 1]), s[|s| - 1])
  }

  /** The keys of the index are the distinct keys of the input, in order of first appearance. */
  lemma {:induction false} IndexByKeys<T, K(!new)>(s: seq<T>, key: T -> K)
    ensures IndexBy(s, key).keys == Unique(Project(s, key))
    decreases |s|
  {
    if |s| > 0 {
      var init, last := s[..|s| - 1], s[|s| - 1];
      IndexByKeys(init, key);
      UniqueSnoc(Project(init, key), key(last));
      assert Project(s, key) == Project(init, key) + [key(last)];
    }
  }

  /** In `IndexBy`, a later element overwrites an earlier one with the same key. */
  lemma {:induction false} IndexByLastWins<T, K(!new)>(s: seq<T>, key: T -> K, i: nat)
    requires i < |s| && LastOfKey(s, key, i)
    ensures key(s[i]) in IndexBy(s, key).values
    ensures IndexBy(s, key).values[key(s[i])] == s[i]
    decreases |s|
  {
    if i < |s| - 1 {
      var init := s[..|s| - 1];
      assert key(s[|s| - 1]) != key(s[i]);
      assert LastOfKey(init, key, i) by {
        forall j | i < j < |init| ensures key(init[j]) != key(init[i]) {
          assert key(s[j]) != key(s[i]);
        }
      }
      IndexByLastWins(init, key, i);
    }
  }

  /** Sum of the lengths of the lists stored under `keys`. */
  function SumLengths<K(==,!new), V>(keys: seq<K>, values: map<K, seq<V>>): nat
    decreases |keys|
  {
    if |keys| == 0 then 0
    else
      var k := keys[|keys| - 1];
      SumLengths(keys[..|keys| - 1], values) + (if k in values then |values[k]| else 0)
  }

  /** Number of values held by all lists of a list-valued array. */
  function TotalCount<K(==,!new), V>(a: OrderedArray<K, seq<V>>): nat {
    SumLengths(a.keys, a.values)
  }

  /** Changing the list under a key that is not listed does not change the sum. */
  lemma {:induction false} SumLengthsFrame<K(!new), V>(keys: seq<K>, values: map<K, seq<V>>, k: K, v: seq<V>)
    requires k !in keys
    ensures SumLengths(keys, values[k := v]) == SumLengths(keys, values)
    decreases |keys|
  {
    if |keys| > 0 {
      SumLengthsFrame(keys[..|keys| - 1], values, k, v);
    }
  }

  /** Growing the list under one listed key by one value grows the sum by one. */
  lemma {:induction false} SumLengthsGrow<K(!new), V>(keys: seq<K>, values: map<K, seq<V>>, k: K, v: V)
    requires Distinct(keys) && k in keys && k in values
    ensures SumLengths(keys, values[k := values[k] + [v]]) == SumLengths(keys, values) + 1
    decreases |keys|
  {
    var init := keys[..|keys| - 1];
    var last := keys[|keys| - 1];
    if last == k {
      assert k !in init by {
        forall i | 0 <= i < |init| ensures init[i] != k {
          assert keys[i] != keys[|keys| - 1];
        }
      }
      SumLengthsFrame(init, values, k, values[k] + [v]);
    } else {
      assert k in init by {
        var i :| 0 <= i < |keys| && keys[i] == k;
        assert i < |keys| - 1;
        assert init[i] == k;
      }
      assert Distinct(init) by {
        forall i, j | 0 <= i < j < |init| ensures init[i] != init[j] {
          assert keys[i] != keys[j];
        }
      }
      SumLengthsGrow(init, values, k, v);
    }
  }

  /** `$a[$k][] = $v` adds exactly one value to the array. */
  lemma AppendToCount<K(!new), V>(a: OrderedArray<K, seq<V>>, k: K, v: V)
    requires a.Valid()
    ensures TotalCount(AppendTo(a, k, v)) == TotalCount(a) + 1
  {
    if k in a.values {
      SumLengthsGrow(a.keys, a.values, k, v);
    } else {
      assert k !in a.keys;
      SumLengthsFrame(a.keys, a.values, k, [v]);
      var r := AppendTo(a, k, v);
      assert r.values[k] == [v];
      assert r.keys == a.keys + [k] && r.values == a.values[k := [v]];
      assert r.keys[..|r.keys| - 1] == a.keys;
    }
  }

  /** Grouping files every element exactly once. */
  lemma {:induction false} GroupByCount<T, K(!new), V>(s: seq<T>, key: T -> K, val: T -> V)
    ensures TotalCount(GroupBy(s, key, val)) == |s|
    decreases |s|
  {
    if |s| > 0 {
      GroupByCount(s[..|s| - 1], key, val);
      AppendToCount(GroupBy(s[..|s| - 1], key, val), key(s[|s| - 1]), val(s[|s| - 1]));
    }
  }
}

=== FILE: php_string.dfy ===
/** PHP's `explode` and `implode` for a one-character separator. */
module PhpString {

  /**
   `explode($sep, $s)`: the pieces of `s` between separators, always at least
   one; the empty string gives the single piece "".
   */
  function Explode(sep: char, s: string): (parts: seq<string>)
    ensures |parts| >= 1
    ensures forall i :: 0 <= i < |parts| ==> sep !in parts[i]
    decreases |s|
  {
    if |s| == 0 then [""]
    else
      var rest := Explode(sep, s[1..]);
      if s[0] == sep then [""] + rest
      else [[s[0]] + rest[0]] + rest[1..]
  }

  /** `implode($sep, $parts)`: the pieces joined by the separator. */
  function Implode(sep: char, parts: seq<string>): string
    decreases |parts|
  {
    if |parts| == 0 then ""
    else if |parts| == 1 then parts[0]
    else parts[0] + [sep] + Implode(sep, parts[1..])
  }

  /** Joining the pieces of a string gives the string back. */
  lemma {:induction false} ImplodeExplode(sep: char, s: string)
    ensures Implode(sep, Explode(sep, s)) == s
    decreases |s|
  {
    if |s| > 0 {
      var rest := Explode(sep, s[1..]);
      ImplodeExplode(sep, s[1..]);
      assert s == [s[0]] + s[1..];
      if s[0] == sep {
        assert ([""] + rest)[1..] == rest;
      } else if |rest| == 1 {
        assert Explode(sep, s) == [[s[0]] + rest[0]];
      } else {
        var parts := Explode(sep, s);
        assert parts[1..] == rest[1..];
        assert Implode(sep, rest) == rest[0] + [sep] + Implode(sep, rest[1..]);
      }
    }
  }

  /** A separator-free prefix joins the first piece. */
  lemma {:induction false} ExplodePrefix(sep: char, p: string, t: string)
    requires sep !in p
    ensures Explode(sep, p + t) == [p + Explode(sep, t)[0]] + Explode(sep, t)[1..]
    decreases |p|
  {
    if |p| > 0 {
      ExplodePrefix(sep, p[1..], t);
      assert (p + t)[1..] == p[1..] + t;
      assert (p + t)[0] == p[0];
      assert [p[0]] + (p[1..] + Explode(sep, t)[0]) == p + Explode(sep, t)[0];
    } else {
      var e := Explode(sep, t);
      assert p + t == t;
      assert p + e[0] == e[0];
      assert e == [e[0]] + e[1..];
    }
  }

  /** Splitting the join of separator-free pieces gives the pieces back. */
  lemma {:induction false} ExplodeImplode(sep: char, parts: seq<string>)
    requires |parts| >= 1
    requires forall i :: 0 <= i < |parts| ==> sep !in parts[i]
    ensures Explode(sep, Implode(sep, parts)) == parts
    decreases |parts|
  {
    if |parts| == 1 {
      ExplodePrefix(sep, parts[0], "");
      assert parts[0] + "" == parts[0];
      assert parts == [parts[0]];
    } else {
      var tail := Implode(sep, parts[1..]);
      ExplodeImplode(sep, parts[1..]);
      assert Implode(sep, parts) == parts[0] + ([sep] + tail);
      ExplodePrefix(sep, parts[0], [sep] + tail);
      assert ([sep] + tail)[1..] == tail;
      assert Explode(sep, [sep] + tail) == [""] + parts[1..];
      assert parts[0] + "" == parts[0];
      assert parts == [parts[0]] + parts[1..];
    }
  }
}

=== FILE: product_price_event.dfy ===
/**
 The attribute price-event retriever: for one product in one store it reads the
 current values of the requested price attributes and emits one "changed" or
 "deleted" event per distinct attribute code.

 The database query and its cursor are replaced by the rows the cursor yields
 (or a failure), and the store manager by a function from the scope id to the
 code of the scope's website (`None` when the store lookup throws).
 */
module ProductPriceEvent {
  import opened Wrappers
  import opened PhpArray
  import opened PhpString

  type EntityId = string
  type ScopeId = string

  /** The `$data` argument: `entity_id`, `scope_id` and the comma-separated `attributes`. */
  datatype Request = Request(entityId: EntityId, scopeId: ScopeId, attributes: string)

  /** A row of the product price query: an attribute code and its value, NULL as `None`. */
  datatype PriceRow = PriceRow(attributeCode: string, value: Option<string>)

  /** What running the query and reading its cursor to the end produced. */
  datatype Query = QueryFailed | Fetched(rows: seq<PriceRow>)

  datatype EventType = PriceChanged | PriceDeleted

  /** The event record the event builder assembles; `metaCode` is `meta.code`. */
  datatype Event = Event(
    eventType: EventType,
    entityId: EntityId,
    scopeCode: string,
    oldValue: Option<string>,
    newValue: Option<string>,
    metaCode: string)

  function CodeOf(row: PriceRow): string { row.attributeCode }

  /** Events built so far by the event loop, and whether it was cut short by an error. */
  datatype Built = Built(events: seq<Event>, failed: bool)

  /**
   The attribute list split at commas and deduplicated: the requested codes, each once,
   in the order of their first mention.
   */
  function RequestedCodes(attributes: string): (codes: seq<string>)
    ensures |codes| >= 1 && Distinct(codes)
    ensures forall c :: c in codes <==> c in Explode(',', attributes)
    ensures forall i :: 0 <= i < |codes| ==> ',' !in codes[i]
    ensures forall i, j :: 0 <= i < j < |codes| ==>
      FirstIndex(Explode(',', attributes), codes[i]) < FirstIndex(Explode(',', attributes), codes[j])
  {
    var parts := Explode(',', attributes);
    var codes := Unique(parts);
    UniqueOrder(parts);
    assert forall i :: 0 <= i < |codes| ==> ',' !in codes[i] by {
      forall i | 0 <= i < |codes| ensures ',' !in codes[i] {
        var j := FirstIndex(parts, codes[i]);
      }
    }
    codes
  }

  /** The empty attribute list requests the single code "". */
  lemma RequestedCodesOfEmpty()
    ensures RequestedCodes("") == [""]
  {
    assert Explode(',', "") == [""];
  }

  /** Requesting codes that contain no comma and no repetition gives exactly those codes back. */
  lemma RequestedCodesOfList(codes: seq<string>)
    requires |codes| >= 1 && Distinct(codes)
    requires forall i :: 0 <= i < |codes| ==> ',' !in codes[i]
    ensures RequestedCodes(Implode(',', codes)) == codes
  {
    ExplodeImplode(',', codes);
    UniqueOfDistinct(codes);
  }

  /** The fetched rows filed by attribute code, a later row replacing an earlier one. */
  function IndexRows(rows: seq<PriceRow>): (index: OrderedArray<string, PriceRow>)
    ensures index.Valid()
    ensures forall c :: c in index.values ==> index.values[c].attributeCode == c
  {
    IndexBy(rows, CodeOf)
  }

  /** The value of the row filed under `code`; NULL when there is no such row or its value is NULL. */
  function AttributeValue(index: OrderedArray<string, PriceRow>, code: string): (v: Option<string>)
    ensures code !in index.values ==> v == None
    ensures v.Some? ==> code in index.values
    ensures code in index.values ==> v == index.values[code].value
  {
    if code in index.values then index.values[code].value else None
  }

  /**
   The event of one requested code once the website code of the scope is known:
   "deleted" exactly when there is no value, never an old value.
   */
  function EventFor(request: Request, scopeCode: string, code: string, value: Option<string>): (e: Event)
    ensures e.eventType == PriceDeleted <==> value == None
    ensures e.eventType == PriceChanged <==> value != None
    ensures e.entityId == request.entityId && e.scopeCode == scopeCode
    ensures e.oldValue == None && e.newValue == value && e.metaCode == code
  {
    Event(if value == None then PriceDeleted else PriceChanged, request.entityId, scopeCode, None, value, code)
  }

  /**
   The event loop over the requested codes. Each step resolves the website of the
   request's scope; the first failing lookup ends the loop with the events built so far.
   */
  function BuildEvents(
    request: Request, codes: seq<string>, index: OrderedArray<string, PriceRow>,
    websiteCode: ScopeId -> Option<string>): (b: Built)
    ensures b.failed <==> |codes| > 0 && websiteCode(request.scopeId) == None
    ensures b.failed ==> b.events == []
    ensures !b.failed ==> |b.events| == |codes|
    ensures forall i :: 0 <= i < |b.events| ==>
      b.events[i] == EventFor(request, websiteCode(request.scopeId).value, codes[i], AttributeValue(index, codes[i]))
    decreases |codes|
  {
    if |codes| == 0 then Built([], false)
    else
      match websiteCode(request.scopeId)
      case None => Built([], true)
      case Some(scopeCode) =>
        var rest := BuildEvents(request, codes[1..], index, websiteCode);
        Built([EventFor(request, scopeCode, codes[0], AttributeValue(index, codes[0]))] + rest.events, rest.failed)
  }

  /**
   `retrieve`: every error is caught and the events built until then are returned.
   */
  function Retrieve(request: Request, query: Query, websiteCode: ScopeId -> Option<string>): (events: seq<Event>)
    ensures query.QueryFailed? || websiteCode(request.scopeId) == None ==> events == []
    ensures query.Fetched? && websiteCode(request.scopeId).Some? ==>
      |events| == |RequestedCodes(request.attributes)|
    ensures forall i :: 0 <= i < |events| ==>
      && events[i].metaCode == RequestedCodes(request.attributes)[i]
      && events[i].entityId == request.entityId
      && Some(events[i].scopeCode) == websiteCode(request.scopeId)
      && events[i].oldValue == None
      && (events[i].eventType == PriceDeleted <==> events[i].newValue == None)
  {
    match query
    case QueryFailed => []
    case Fetched(rows) =>
      BuildEvents(request, RequestedCodes(request.attributes), IndexRows(rows), websiteCode).events
  }

  /** A code with no row at all gets a "deleted" event. */
  lemma {:induction false} RetrieveMissingRowDeletes(
    request: Request, rows: seq<PriceRow>, websiteCode: ScopeId -> Option<string>, i: nat)
    requires websiteCode(request.scopeId).Some? && i < |RequestedCodes(request.attributes)|
    requires forall j :: 0 <= j < |rows| ==> rows[j].attributeCode != RequestedCodes(request.attributes)[i]
    ensures Retrieve(request, Fetched(rows), websiteCode)[i].eventType == PriceDeleted
    ensures Retrieve(request, Fetched(rows), websiteCode)[i].newValue == None
  {
    var code := RequestedCodes(request.attributes)[i];
    var index := IndexRows(rows);
    IndexRowsKeys(rows);
    assert code !in Project(rows, CodeOf);
    assert code !in index.values;
  }

  /** The keys of the row index are the attribute codes of the rows. */
  lemma IndexRowsKeys(rows: seq<PriceRow>)
    ensures forall c :: c in IndexRows(rows).values <==> c in Project(rows, CodeOf)
  {
    IndexByKeys(rows, CodeOf);
  }

  /**
   When several rows share the requested code, the last of them gives the event
   its value and its type.
   */
  lemma RetrieveLastRowWins(
    request: Request, rows: seq<PriceRow>, websiteCode: ScopeId -> Option<string>, i: nat, j: nat)
    requires websiteCode(request.scopeId).Some? && i < |RequestedCodes(request.attributes)|
    requires j < |rows| && rows[j].attributeCode == RequestedCodes(request.attributes)[i]
    requires LastOfKey(rows, CodeOf, j)
    ensures Retrieve(request, Fetched(rows), websiteCode)[i].newValue == rows[j].value
    ensures Retrieve(request, Fetched(rows), websiteCode)[i].eventType == PriceDeleted <==> rows[j].value == None
  {
    IndexByLastWins(rows, CodeOf, j);
  }
}

=== FILE: reindex_variants_after_save.dfy ===
/**
 The after-save plugin on the product resource model: when a simple or
 virtual product is saved, every configurable parent linked through an
 attribute whose value changed is sent for reindexing, either through the
 variant feed indexer's change log (scheduled mode) or at once.

 The linked-attributes query is replaced by the links it returns (or a
 failure), the indexer by its mode and view id, and the two indexer calls by
 the action value the plugin would perform.
 */
module ReindexVariantsAfterSave {
  import opened Wrappers

  type ProductId = int

  /** A PHP value as stored in a model's data; `==` on it is PHP's `===`. */
  datatype PhpValue = Null | Bool(b: bool) | Int(i: int) | Str(s: string)

  /** The saved product: its type id and its original and current data. */
  datatype Product = Product(typeId: PhpValue, origData: map<string, PhpValue>, data: map<string, PhpValue>)

  /** A row of the linked-attributes query: a parent and the attribute linking it. */
  datatype Link = Link(parentId: ProductId, attributeCode: string)

  /** What running the linked-attributes query and `fetchAll` produced. */
  datatype LinksQuery = LinksFetched(links: seq<Link>) | LinksQueryFailed

  /** The variant feed indexer: whether it runs on schedule, and its view id. */
  datatype Indexer = Indexer(scheduled: bool, viewId: string)

  /** The reindex work requested. */
  datatype ReindexAction = ChangeLogAppend(viewId: string, ids: seq<ProductId>) | ReindexList(ids: seq<ProductId>)

  /** The plugin returned `result` after requesting `action`, or the query threw. */
  datatype AfterSaveOutcome<R> = Returned(result: R, action: Option<ReindexAction>) | Thrown

  const TypeSimple := "simple"
  const TypeVirtual := "virtual"

  /** A strict membership test: the type id must be exactly the string "simple" or "virtual". */
  function IsVariantType(typeId: PhpValue): (b: bool)
    ensures b ==> typeId.Str?
    ensures b <==> typeId.Str? && typeId.s in [TypeSimple, TypeVirtual]
  {
    typeId == Str(TypeSimple) || typeId == Str(TypeVirtual)
  }

  /** The value the product had for `code` when loaded; NULL when the key is absent. */
  function OrigData(p: Product, code: string): PhpValue {
    if code in p.origData then p.origData[code] else Null
  }

  /** The value the product holds for `code` now; NULL when the key is absent. */
  function Data(p: Product, code: string): PhpValue {
    if code in p.data then p.data[code] else Null
  }

  /** The loaded and current values of `code` differ, compared strictly (type and value). */
  function AttributeChanged(p: Product, code: string): (b: bool)
    ensures b ==> code in p.origData || code in p.data
    ensures code !in p.origData && code in p.data ==> (b <==> p.data[code] != Null)
    ensures OrigData(p, code).Str? != Data(p, code).Str? ==> b
    ensures code !in p.origData && code !in p.data ==> !b
    ensures code in p.origData && code in p.data && p.origData[code] == p.data[code] ==> !b
    ensures OrigData(p, code).Str? && Data(p, code).Str? ==> (b <==> OrigData(p, code).s != Data(p, code).s)
    ensures OrigData(p, code).Int? && Data(p, code).Int? ==> (b <==> OrigData(p, code).i != Data(p, code).i)
    ensures OrigData(p, code).Bool? && Data(p, code).Bool? ==> (b <==> OrigData(p, code).b != Data(p, code).b)
  {
    OrigData(p, code) != Data(p, code)
  }

  /** The collecting loop: the parent of every link whose attribute changed, in link order. */
  function ChangedParentIds(p: Product, links: seq<Link>): (ids: seq<ProductId>)
    ensures |ids| <= |links|
    ensures forall id :: id in ids <==> exists l :: l in links && l.parentId == id && AttributeChanged(p, l.attributeCode)
    decreases |links|
  {
    if |links| == 0 then []
    else
      var rest := ChangedParentIds(p, links[1..]);
      assert forall l :: l in links <==> l == links[0] || l in links[1..];
      if AttributeChanged(p, links[0].attributeCode) then [links[0].parentId] + rest else rest
  }

  /** Collecting over two runs of links is collecting over each in turn. */
  lemma {:induction false} ChangedParentIdsAppend(p: Product, a: seq<Link>, b: seq<Link>)
    ensures ChangedParentIds(p, a + b) == ChangedParentIds(p, a) + ChangedParentIds(p, b)
    decreases |a|
  {
    if |a| > 0 {
      assert (a + b)[1..] == a[1..] + b;
      ChangedParentIdsAppend(p, a[1..], b);
    } else {
      assert a + b == b;
    }
  }

  /** Every changed link contributes its parent once, so a parent linked twice is collected twice. */
  lemma ChangedParentIdsKeepsRepeats(p: Product, parent: ProductId, a: string, b: string)
    requires AttributeChanged(p, a) && AttributeChanged(p, b)
    ensures ChangedParentIds(p, [Link(parent, a), Link(parent, b)]) == [parent, parent]
  {
    assert [Link(parent, a), Link(parent, b)][1..] == [Link(parent, b)];
  }

  /** The comparison is strict: the integer 1 replaced by the string "1" is a change. */
  lemma StrictComparison(code: string)
    ensures AttributeChanged(Product(Str(TypeSimple), map[code := Int(1)], map[code := Str("1")]), code)
    ensures !AttributeChanged(Product(Str(TypeSimple), map[], map[code := Null]), code)
  {
  }

  /** `reindexVariants`: the change log in scheduled mode, an immediate reindex otherwise. */
  function ReindexVariants(indexer: Indexer, ids: seq<ProductId>): (a: ReindexAction)
    ensures a.ids == ids
    ensures a.ChangeLogAppend? <==> indexer.scheduled
    ensures a.ChangeLogAppend? ==> a.viewId == indexer.viewId
  {
    if indexer.scheduled then ChangeLogAppend(indexer.viewId, ids) else ReindexList(ids)
  }

  /**
   `afterSave`: the incoming result is returned unchanged; reindexing is requested
   only for a simple or virtual product with at least one changed linked attribute.
   */
  function AfterSave<R>(result: R, product: Product, query: LinksQuery, indexer: Indexer): (o: AfterSaveOutcome<R>)
    ensures o.Returned? ==> o.result == result
    ensures o.Thrown? <==> IsVariantType(product.typeId) && query.LinksQueryFailed?
    ensures !IsVariantType(product.typeId) ==> o.Returned? && o.action == None
    ensures o.Returned? && o.action.Some? ==>
      && IsVariantType(product.typeId)
      && query.LinksFetched?
      && o.action.value.ids == ChangedParentIds(product, query.links)
      && |o.action.value.ids| > 0
      && (o.action.value.ChangeLogAppend? <==> indexer.scheduled)
      && (o.action.value.ChangeLogAppend? ==> o.action.value.viewId == indexer.viewId)
      && o.action.value == ReindexVariants(indexer, ChangedParentIds(product, query.links))
    ensures IsVariantType(product.typeId) && query.LinksFetched? ==>
      (o.Returned? && o.action == None <==> ChangedParentIds(product, query.links) == [])
  {
    if IsVariantType(product.typeId) then
      match query
      case LinksQueryFailed => Thrown
      case LinksFetched(links) =>
        var ids := ChangedParentIds(product, links);
        if |ids| > 0 then Returned(result, Some(ReindexVariants(indexer, ids))) else Returned(result, None)
    else Returned(result, None)
  }
}

=== FILE: wrappers.dfy ===
/** Optional values: PHP's nullable values and calls that may throw. */
module Wrappers {

  datatype Option<+T> = None | Some(value: T)
}
